=== FILE: README.md ===
# Content soup and user selector of a movie recommender, in Dafny

The recommender suggests movies from a user's likes and dislikes, using content
similarity. This project models the two pieces of plain string and integer logic
that the repository defines itself:

- **The content soup** (`criar_content_soup`, `backend/recomendacao.py`). This is
  the text one catalog row contributes to the TF-IDF vectoriser. The six
  categorical columns are read in a fixed order: Genre, Director, Star1, Star2,
  Star3, Star4. Each string value becomes one token: every space turns into `_`
  and the value is lower-cased. Null and non-string values are skipped. The
  tokens are joined with single spaces. Then one more space and the overview
  follow, untouched; a null overview counts as `''`.
- **The user selector** of the Streamlit front end (`frontend/app.py`), lifted
  out of its UI code into pure functions:
  - the id-to-name map and the option labels `"{nome} (ID: {id})"`, with a
    prompt option first;
  - the id given to a new user (`get_next_user_id`);
  - the active user read back from a selected option;
  - the check on a new user's name.

Modules:

| module | file | models |
|---|---|---|
| `Wrappers` | `wrappers.dfy` | `Option` and `Result`, the model's stand-ins for `None` and for a raised exception |
| `Strings` | `strings.dfy` | `str.lower` (ASCII), one-character `str.replace`, `str.strip`, substring `in` |
| `Splitting` | `splitting.dfy` | `sep.join`, `str.split` with a one-character or a string separator |
| `Numerals` | `numerals.dfy` | `str(n)` and `int(s)` in base 10 |
| `ContentSoup` | `content_soup.dfy` | `criar_content_soup` |
| `UserSelector` | `user_selector.dfy` | the user-selector helpers of the front end |

A catalog row is a map from column name to `Cell`. A cell is `Missing` (`None`
or `NaN`), `Str(s)` or `NonStr` (any other non-null value). A column absent from
the map does not exist. In the source, reading an absent column raises
`KeyError`, and appending a non-string overview raises `TypeError`. The model
returns these as `Failure` results.

Two details of the code shape the model:

- Only the six categorical columns tolerate null or non-string values
  (`backend/recomendacao.py:28`). An absent column raises `KeyError`, and a
  non-string, non-null overview raises `TypeError` when it is appended
  (`backend/recomendacao.py:36-39`).
- Only the space character U+0020 becomes `_` (`backend/recomendacao.py:31`).
  Tabs and other whitespace stay inside the token.

## Model

| member | source | states |
|---|---|---|
| ContentSoup.Soup | backend/recomendacao.py:14-39 | The declarative soup: `KeyError` for the first column the row lacks, in reading order; `TypeError` for a non-string overview; otherwise the joined tokens, a space and the overview text. The lemmas below state its properties |
| ContentSoup.CleanToken | backend/recomendacao.py:31 | `value.replace(" ", "_").lower()`; CleanTokenSpec states its result character by character |
| ContentSoup.TokenOf | backend/recomendacao.py:28-32 | The tokens a cell contributes: one cleaned token for a string, none for a null or non-string value |
| ContentSoup.CreateContentSoup | backend/recomendacao.py:14-39 | The source's loop over the six columns returns exactly the declarative soup: a `KeyError` for the first absent column (Genre … Star4, then Overview), `TypeError` for a non-string overview, otherwise the joined tokens, a space and the overview |
| ContentSoup.CleanTokenSpec | backend/recomendacao.py:29-31 | A token has one character per character of the value. A space becomes `_` and every other character is lower-cased, so the token holds no space and no upper-case ASCII letter |
| ContentSoup.TokensInOrder | backend/recomendacao.py:21-32 | Only Genre, Director, Star1, Star2, Star3 and Star4 contribute tokens, in that order, at most one each |
| ContentSoup.TokenCount | backend/recomendacao.py:25-32 | There are at most six tokens. There are none when no categorical value is a string, and six when every one is |
| ContentSoup.TokensOfSpaceFree | backend/recomendacao.py:28-32 | No categorical token contains a space |
| ContentSoup.SoupSucceeds | backend/recomendacao.py:26-39 | Null or non-string categorical values never cause a failure. The soup fails exactly when a column is absent or the overview is a non-string value |
| ContentSoup.SoupLayout | backend/recomendacao.py:34-39 | The soup is the joined tokens, one space, then the overview verbatim. A null overview leaves the soup ending in that space |
| ContentSoup.SoupWithoutTokens | backend/recomendacao.py:25-39 | With no string categorical value, the soup is `" " + overview` |
| ContentSoup.SoupRoundTrip | backend/recomendacao.py:31-39 | With at least one token, dropping the trailing space and overview and splitting on single spaces gives back exactly the token list |
| ContentSoup.SoupReadsOnlyItsColumns | backend/recomendacao.py:21-36 | Two rows that agree on the seven columns read have the same soup. No other column matters |
| Strings.Lower | backend/recomendacao.py:31 | Lower-casing keeps the length, maps each character through ASCII lower-casing and leaves no upper-case ASCII letter |
| Strings.ReplaceChar | backend/recomendacao.py:31 | `replace(" ", "_")` keeps the length and changes exactly the spaces |
| Splitting.Join | backend/recomendacao.py:39 | `" ".join(tokens)`: the parts with one separator between neighbours, and the empty text for no parts; SplitJoin and JoinSplit relate it to `split` |
| Splitting.SplitJoin | backend/recomendacao.py:39 | For a non-empty list of parts without the separator, `" ".join(parts).split(" ")` gives back the parts |
| Splitting.SplitOn | frontend/app.py:85 | `option.split("ID: ")`: pieces between non-overlapping left-to-right occurrences of the separator; always at least one piece |
| Splitting.SplitIsSplitOn | frontend/app.py:85 | Splitting on a character is the same `str.split` as splitting on the one-character string, so the one-character split of the soup round trip and the option's `split("ID: ")` model one operation |
| Splitting.LastSegment | frontend/app.py:85 | `option.split("ID: ")[-1]`, the text after the last occurrence found; LastSegmentAfter characterises it |
| Strings.RemoveChar | frontend/app.py:85 | `replace(")", "")` leaves no `)` and never lengthens the text |
| Splitting.LastSegmentAfter | frontend/app.py:85 | For a separator with no overlapping occurrences, the last piece of `p + sep + t` is the last piece of `t`, whatever `p` is |
| Strings.ContainsAt | frontend/app.py:83 | The substring test holds exactly when the marker starts at some position of the text |
| Numerals.IntToString | frontend/app.py:42 | The digits `str(id)` writes inside the label: a minus sign for a negative id, then the digits of its magnitude. `str` writes them only when `FitsDigitLimit` holds, and raises `ValueError` otherwise; ParseIntOfIntToString inverts it |
| Numerals.DigitCountBound | frontend/app.py:42 | A non-negative number has at most k digits exactly when it is below 10^k, so `FitsDigitLimit(n)`, the condition under which `str(n)` does not raise, says the magnitude of n is below 10^4300 (Python's default `sys.get_int_max_str_digits()`) |
| Numerals.ParseInt | frontend/app.py:86 | `int(text)`: surrounding whitespace ignored, one optional sign, then at least one and at most 4300 ASCII digits, leading zeros counted; `None` where `int` raises `ValueError`. The information separators U+001C to U+001F count as whitespace for `strip()` but not for `int()`, so any of them makes it raise |
| Numerals.ParseIntRejectsInfoSeparator | frontend/app.py:86 | `int("\x1c5")` raises: an information separator before the digits is not skipped |
| Numerals.NatToString | frontend/app.py:42 | A formatted non-negative id is a non-empty run of digits with no leading zero |
| Numerals.ParseIntOfDigits | frontend/app.py:86 | A bare digit run parses to the number it denotes exactly when it has at most 4300 digits; a longer one makes `int` raise |
| Numerals.ParseIntPaddedFive | frontend/app.py:86 | `int("0" * k + "5")` is 5 for k < 4300 and raises for longer padding: leading zeros count towards the limit |
| Numerals.ParseIntOfNatToString | frontend/app.py:86 | `int(str(n)) == n` for every non-negative id that `str` can format; the text of a longer one does not parse either |
| Numerals.ParseIntOfIntToString | frontend/app.py:86 | `int(str(n)) == n` for every integer `str` can format, negative ones included; beyond the limit the text does not parse |
| Numerals.ParseIntNeedsDigit | frontend/app.py:86 | Text with no digit never parses, so `int` raises on it |
| UserSelector.LoadUsers | frontend/app.py:33-47 | `get_usuarios_validos()`: the selector for the received users. A failed request, an entry missing a key, or an id too long for `str`, gives the empty map and the error option; a body without `usuarios` counts as an empty list |
| UserSelector.BuildSelector | frontend/app.py:41-44 | The map from the comprehension and the options: the prompt, then one label per user in list order; nothing when some id is too long, as its f-string raises. SelectorRoundTrip states its properties |
| UserSelector.Label | frontend/app.py:42 | `f"{nome} (ID: {usuario_id})"`; DecodeLabel proves every label decodes back to its id |
| UserSelector.DecodeId | frontend/app.py:85-86 | `int(option.split("ID: ")[-1].replace(")", ""))`, with `None` where `int` raises; DecodeLabel and DecodeExample state what it returns |
| UserSelector.UserMap | frontend/app.py:41 | The map's keys are exactly the ids in the user list |
| UserSelector.UserMapLastWins | frontend/app.py:41 | When an id repeats, the map keeps the name of the last entry with that id |
| UserSelector.LabelLastSegment | frontend/app.py:42-85 | The text after the last `ID: ` of a label is the id's digits and `)` |
| UserSelector.DropParenthesis | frontend/app.py:85 | Deleting `)` from the digits and closing parenthesis leaves the digits |
| UserSelector.DecodeLabel | frontend/app.py:82-86 | Every label contains `ID:` and decodes to its user's id, for every name, including names containing `ID: ` or `)`, as long as the id fits the digit limit; otherwise `int` raises on it |
| UserSelector.DecodeExample | frontend/app.py:82 | `"Nome (ID: 10)"` decodes to 10 |
| UserSelector.SelectUser | frontend/app.py:83-89 | An option without `ID:` selects nobody. An option with `ID:` selects exactly the decoded id. It raises exactly when that id does not parse (`ValueError`) or is not a key of the map (`KeyError`), so a selected id is always a key |
| UserSelector.SelectPromptLacksMarker | frontend/app.py:44 | The selection prompt contains no `ID:` |
| UserSelector.LoadErrorPromptLacksMarker | frontend/app.py:47 | The load-error prompt contains no `ID:` |
| UserSelector.PromptsSelectNobody | frontend/app.py:83-89 | Choosing either prompt leaves no active user |
| UserSelector.SelectUserOption | frontend/app.py:41-86 | The option after the prompt at position i + 1 selects the id of the i-th user |
| UserSelector.SelectorRoundTrip | frontend/app.py:41-44 | A selector is built exactly when every id fits the digit limit. Then there are one more options than users. The first option is the prompt, which lacks `ID:` and so selects nobody. The option at i + 1 selects the i-th user's id |
| UserSelector.BuiltOptionSelects | frontend/app.py:83-87 | Choosing any single option of a selector built from a user list does not raise |
| UserSelector.BuiltSelectorNeverRaises | frontend/app.py:83-87 | No option of a selector built from a user list raises when chosen |
| UserSelector.FallbackSelectsNobody | frontend/app.py:45-47 | The only option of the fallback selector lacks `ID:`, so it selects nobody |
| UserSelector.LoadUsersNeverRaises | frontend/app.py:33-47 | For a failed request, a missing `usuarios` key or any list of integer-id records the server answers, no loaded option raises when chosen. The first option lacks `ID:`, so it selects nobody. A failed request gives the empty map and the error option |
| UserSelector.OversizedIdFallback | frontend/app.py:41-47 | A complete list with an id of more than 4300 digits falls back to the error selector, because formatting its label raises `ValueError` |
| UserSelector.IncompleteRecordFallback | frontend/app.py:41-47 | An entry lacking `usuario_id` or `nome` makes the whole list fall back to the error selector |
| UserSelector.NextUserId | frontend/app.py:50-54 | The next id is 1 for an empty map, otherwise the largest id plus one. It is greater than every existing id, so it is not already a key |
| UserSelector.NewUserRequest | frontend/app.py:105-111 | A name is refused exactly when it is all whitespace. An accepted name is sent stripped, with the given id |
| Strings.Strip | frontend/app.py:105-111 | `name.strip()`: the name without leading and trailing whitespace, as Python's `str.isspace` defines it; StripSpec characterises it |
| Strings.TrimStartSpec | frontend/app.py:105 | The leading half of `strip()`: the longest suffix of the text that does not start with whitespace, everything cut off being whitespace |
| Strings.TrimEndSpec | frontend/app.py:105 | The trailing half of `strip()`: the longest prefix of the text that does not end with whitespace, everything cut off being whitespace |
| Strings.StripSpec | frontend/app.py:105-111 | `strip()` returns the slice left once the whitespace at both ends is cut away. The result neither starts nor ends with whitespace, and it is empty exactly when the input is all whitespace |

## Left out

- `carregar_dados_e_vetorizar` (`backend/recomendacao.py:42-74`): it reads a CSV with pandas and fits scikit-learn's `TfidfVectorizer`. That is file I/O and a foreign library with floating-point weights.
- `backend/main.py`: the FastAPI routes, status codes, Pydantic models, score formatting and startup. This is HTTP plumbing.
- The profile builder and the similarity ranker. `backend/main.py:11-16` imports `construir_perfil_usuario` and `gerar_recomendacoes` from `backend/recomendacao.py`, but that file defines neither of them, so there is no code to model. The precision/recall evaluation is left out for the same reason.
- All Streamlit UI in `frontend/app.py`: widgets, tabs, cards, `st.cache_data`, toasts, `st.rerun`. Also the `requests` calls: the answer to the user-list request is a parameter (`UsersResponse`), and the POST of a new user is modelled only up to the request it would send (`NewUserRequest`).
- `run.py`: process launching, sleeps, browser opening and signal handling.
- Strings.Lower: models lower-casing of ASCII letters only. Python's `str.lower` also lower-cases other letters and can change the length (`'İ'`), which matters only to how the vectoriser later sees non-ASCII names.
- Numerals.ParseInt: it accepts optional whitespace, one sign and ASCII digits. Python's `int` also accepts `_` between digits and non-ASCII decimal digits; such options fail to parse here instead of yielding a number. The digit limit is fixed at Python's default of 4300; a limit changed through `sys.set_int_max_str_digits` or `PYTHONINTMAXSTRDIGITS` is not modelled.
- `ContentSoup.Cell`: every non-null, non-string value (numbers, booleans, …) is one case, `NonStr`, because the source only asks whether a value is a string.
- UserSelector.LoadUsersNeverRaises: holds for records whose `usuario_id` is an integer and whose `nome` is a string (`UserRecord`). Other JSON types are not modelled. A string id such as `"5"` would make choosing that user raise `KeyError` (`frontend/app.py:87`). A fractional id would make it raise `ValueError` (`frontend/app.py:86`). The f-string rendering of a non-string name is not modelled either.

=== FILE: content_soup.dfy ===
/**
 * The "content soup" of one catalog row: the text handed to the TF-IDF
 * vectoriser. Six categorical columns become one token each (spaces turned
 * into underscores, lower-cased), the tokens are joined with spaces, and the
 * overview is appended after one more space, untouched.
 */
module ContentSoup {
  import opened Wrappers
  import opened Strings
  import opened Splitting

  /** One cell of a catalog row as pandas hands it over. */
  datatype Cell =
    | Missing        // `None` or `NaN`: `pd.notna` is false
    | Str(s: string) // a Python `str`
    | NonStr         // any other non-null value (a number, say)

  /** A catalog row: column name to cell; a column absent from the map does not exist. */
  type Row = map<string, Cell>

  /** The ways building the soup raises instead of returning. */
  datatype SoupError =
    | MissingColumn(column: string) // `row[column]` raises `KeyError`
    | OverviewNotText               // `str + overview` raises `TypeError`

  /** The categorical columns, in the order their tokens appear. */
  const Attributes: seq<string> := ["Genre", "Director", "Star1", "Star2", "Star3", "Star4"]

  const OverviewColumn: string := "Overview"

  /** Every column the soup reads, in the order it reads them. */
  const Columns: seq<string> := Attributes + [OverviewColumn]

  /** `value.replace(" ", "_").lower()`. */
  function CleanToken(value: string): string {
    Lower(ReplaceChar(value, ' ', '_'))
  }

  /** The token a cell contributes: one for a string, none otherwise. */
  function TokenOf(cell: Cell): (tokens: seq<string>)
    ensures |tokens| <= 1
  {
    match cell
    case Str(v) => [CleanToken(v)]
    case _ => []
  }

  /** True when every column of `cols` exists in `row`. */
  predicate HasColumns(row: Row, cols: seq<string>) {
    forall i :: 0 <= i < |cols| ==> cols[i] in row
  }

  /** True when `row` has all six categorical columns and the overview column. */
  predicate Complete(row: Row) {
    HasColumns(row, Attributes) && OverviewColumn in row
  }

  /** The tokens the columns `cols` of `row` contribute, in column order. */
  function TokensOf(row: Row, cols: seq<string>): (tokens: seq<string>)
    requires HasColumns(row, cols)
    ensures |tokens| <= |cols|
    decreases |cols|
  {
    if |cols| == 0 then []
    else TokensOf(row, cols[..|cols| - 1]) + TokenOf(row[cols[|cols| - 1]])
  }

  /** The categorical tokens of a row. */
  function Tokens(row: Row): seq<string>
    requires HasColumns(row, Attributes)
  {
    TokensOf(row, Attributes)
  }

  /** Position of the first column of `cols` that `row` lacks, or `|cols|` when none is lacking. */
  function FirstMissing(row: Row, cols: seq<string>): (k: nat)
    ensures k <= |cols|
    ensures forall i :: 0 <= i < k ==> cols[i] in row
    ensures k < |cols| ==> cols[k] !in row
    decreases |cols|
  {
    if |cols| == 0 || cols[0] !in row then 0 else 1 + FirstMissing(row, cols[1..])
  }

  /** The overview text: `''` for a null overview, `None` when it is not a string. */
  function OverviewText(cell: Cell): Option<string> {
    match cell
    case Missing => Some("")
    case Str(o) => Some(o)
    case NonStr => None
  }

  /**
   * The content soup of a row, stated declaratively: the first column the row
   * lacks raises `KeyError`; otherwise the joined tokens, a space, and the
   * overview text.
   */
  function Soup(row: Row): Result<string, SoupError> {
    var k := FirstMissing(row, Columns);
    if k < |Columns| then Failure(MissingColumn(Columns[k]))
    else
      assert HasColumns(row, Attributes) by {
        forall i | 0 <= i < |Attributes| ensures Attributes[i] in row {
          assert Columns[i] == Attributes[i];
        }
      }
      assert Columns[|Attributes|] == OverviewColumn;
      match OverviewText(row[OverviewColumn])
      case None => Failure(OverviewNotText)
      case Some(overview) => Success(Join(Tokens(row), ' ') + " " + overview)
  }

  /** Extending the column prefix by one column appends that column's token. */
  lemma TokensOfStep(row: Row, cols: seq<string>, i: nat)
    requires i < |cols| && HasColumns(row, cols[..i]) && cols[i] in row
    ensures HasColumns(row, cols[..i + 1])
    ensures TokensOf(row, cols[..i + 1]) == TokensOf(row, cols[..i]) + TokenOf(row[cols[i]])
  {
    assert cols[..i + 1][..i] == cols[..i];
  }

  /** The first column of `cols` the row lacks is the one at `i` when all before it exist. */
  lemma {:induction false} FirstMissingAt(row: Row, cols: seq<string>, i: nat)
    requires i <= |cols| && HasColumns(row, cols[..i])
    requires i < |cols| ==> cols[i] !in row
    ensures FirstMissing(row, cols) == i
    decreases i
  {
    if i > 0 {
      assert cols[..i][0] == cols[0];
      assert cols[1..][..i - 1] == cols[..i][1..];
      FirstMissingAt(row, cols[1..], i - 1);
    }
  }

  /**
   * `criar_content_soup(row)`, following the source's loop: walk the six
   * columns, keep a cleaned token for each string value, then append the
   * overview. It computes exactly the declarative `Soup`.
   */
  method CreateContentSoup(row: Row) returns (r: Result<string, SoupError>)
    ensures r == Soup(row)
  {
    var soupList: seq<string> := [];
    var i := 0;
    while i < |Attributes|
      invariant 0 <= i <= |Attributes|
      invariant HasColumns(row, Attributes[..i])
      invariant soupList == TokensOf(row, Attributes[..i])
    {
      var attr := Attributes[i];
      assert Columns[i] == attr && Columns[..i] == Attributes[..i];
      if attr !in row {
        FirstMissingAt(row, Columns, i);
        return Failure(MissingColumn(attr));
      }
      TokensOfStep(row, Attributes, i);
      if row[attr].Str? {
        soupList := soupList + [CleanToken(row[attr].s)];
      }
      i := i + 1;
    }
    assert Attributes[..i] == Attributes;
    assert Columns[i] == OverviewColumn && Columns[..i] == Attributes;
    if OverviewColumn !in row {
      FirstMissingAt(row, Columns, i);
      return Failure(MissingColumn(OverviewColumn));
    }
    assert Columns[..|Columns|] == Columns;
    FirstMissingAt(row, Columns, |Columns|);
    var overview: string;
    match row[OverviewColumn] {
      case Missing => overview := "";
      case Str(o) => overview := o;
      case NonStr => return Failure(OverviewNotText);
    }
    r := Success(Join(soupList, ' ') + " " + overview);
  }

  /**
   * A cleaned token has one character per character of the value: a space
   * becomes `_`, everything else is lower-cased. So it holds no space and no
   * upper-case ASCII letter.
   */
  lemma CleanTokenSpec(value: string)
    ensures var t := CleanToken(value);
      && |t| == |value|
      && (forall i :: 0 <= i < |t| ==> t[i] == (if value[i] == ' ' then '_' else LowerChar(value[i])))
      && ' ' !in t
      && (forall i :: 0 <= i < |t| ==> !IsAsciiUpper(t[i]))
  {
    var t := CleanToken(value);
    forall i | 0 <= i < |t| ensures t[i] != ' ' {
      LowerCharKeepsSpace(ReplaceChar(value, ' ', '_')[i]);
    }
  }

  /** No categorical token contains a space, so none can be split apart later. */
  lemma {:induction false} TokensOfSpaceFree(row: Row, cols: seq<string>)
    requires HasColumns(row, cols)
    ensures forall k :: 0 <= k < |TokensOf(row, cols)| ==> ' ' !in TokensOf(row, cols)[k]
    decreases |cols|
  {
    if |cols| > 0 {
      var front := cols[..|cols| - 1];
      TokensOfSpaceFree(row, front);
      var cell := row[cols[|cols| - 1]];
      if cell.Str? {
        CleanTokenSpec(cell.s);
      }
    }
  }

  /**
   * Only the six categorical columns contribute tokens, in the fixed order
   * Genre, Director, Star1, Star2, Star3, Star4, each at most one.
   */
  lemma TokensInOrder(row: Row)
    requires HasColumns(row, Attributes)
    ensures Tokens(row) ==
      TokenOf(row[Attributes[0]]) + TokenOf(row[Attributes[1]]) + TokenOf(row[Attributes[2]])
      + TokenOf(row[Attributes[3]]) + TokenOf(row[Attributes[4]]) + TokenOf(row[Attributes[5]])
  {
    var a := Attributes;
    assert a[..6][..5] == a[..5];
    assert a[..5][..4] == a[..4];
    assert a[..4][..3] == a[..3];
    assert a[..3][..2] == a[..2];
    assert a[..2][..1] == a[..1];
    assert a[..1][..0] == [];
    assert a[..6] == a;
    assert TokensOf(row, a[..1]) == TokenOf(row[a[0]]);
    assert TokensOf(row, a[..2]) == TokensOf(row, a[..1]) + TokenOf(row[a[1]]);
    assert TokensOf(row, a[..3]) == TokensOf(row, a[..2]) + TokenOf(row[a[2]]);
    assert TokensOf(row, a[..4]) == TokensOf(row, a[..3]) + TokenOf(row[a[3]]);
    assert TokensOf(row, a[..5]) == TokensOf(row, a[..4]) + TokenOf(row[a[4]]);
  }

  /**
   * Between zero and six tokens: none when no categorical value is a string,
   * all six when every one is.
   */
  lemma TokenCount(row: Row)
    requires HasColumns(row, Attributes)
    ensures |Tokens(row)| <= |Attributes|
    ensures (forall i :: 0 <= i < |Attributes| ==> !row[Attributes[i]].Str?) ==> Tokens(row) == []
    ensures (forall i :: 0 <= i < |Attributes| ==> row[Attributes[i]].Str?) ==> |Tokens(row)| == |Attributes|
  {
    TokensInOrder(row);
    if forall i :: 0 <= i < |Attributes| ==> !row[Attributes[i]].Str? {
      assert !row[Attributes[0]].Str? && !row[Attributes[1]].Str? && !row[Attributes[2]].Str?;
      assert !row[Attributes[3]].Str? && !row[Attributes[4]].Str? && !row[Attributes[5]].Str?;
    }
    if forall i :: 0 <= i < |Attributes| ==> row[Attributes[i]].Str? {
      assert row[Attributes[0]].Str? && row[Attributes[1]].Str? && row[Attributes[2]].Str?;
      assert row[Attributes[3]].Str? && row[Attributes[4]].Str? && row[Attributes[5]].Str?;
    }
  }

  /** The row lacks none of the columns the soup reads exactly when it is `Complete`. */
  lemma CompleteColumns(row: Row)
    ensures FirstMissing(row, Columns) == |Columns| <==> Complete(row)
  {
    var k := FirstMissing(row, Columns);
    assert Columns[|Attributes|] == OverviewColumn;
    if k < |Columns| {
      if k < |Attributes| {
        assert Columns[k] == Attributes[k];
      }
      assert !Complete(row);
    }
    if k == |Columns| {
      forall i | 0 <= i < |Attributes| ensures Attributes[i] in row {
        assert Columns[i] == Attributes[i];
      }
    }
  }

  /**
   * Null or non-string categorical values never make the soup fail: it fails
   * exactly when a column is absent or the overview is a non-string value.
   */
  lemma SoupSucceeds(row: Row)
    ensures Soup(row).Success? <==> Complete(row) && row[OverviewColumn] != NonStr
  {
    CompleteColumns(row);
    assert Columns[|Attributes|] == OverviewColumn;
  }

  /**
   * The soup is the joined tokens, one space, then the overview verbatim
   * (not lower-cased, spaces kept); a null overview leaves the soup ending in
   * that separating space.
   */
  lemma SoupLayout(row: Row)
    requires Soup(row).Success?
    ensures Complete(row) && OverviewText(row[OverviewColumn]).Some?
    ensures var v := Soup(row).value;
      var overview := OverviewText(row[OverviewColumn]).value;
      && |v| == |Join(Tokens(row), ' ')| + 1 + |overview|
      && v[..|v| - |overview| - 1] == Join(Tokens(row), ' ')
      && v[|v| - |overview| - 1] == ' '
      && v[|v| - |overview|..] == overview
      && (row[OverviewColumn] == Missing ==> v[|v| - 1] == ' ')
  {
    SoupSucceeds(row);
    CompleteColumns(row);
  }

  /** With no string among the categorical values the soup is a space and the overview. */
  lemma SoupWithoutTokens(row: Row)
    requires Complete(row) && row[OverviewColumn] != NonStr
    requires forall i :: 0 <= i < |Attributes| ==> !row[Attributes[i]].Str?
    ensures Soup(row) == Success(" " + OverviewText(row[OverviewColumn]).value)
  {
    SoupSucceeds(row);
    TokenCount(row);
    assert Tokens(row) == [];
    CompleteColumns(row);
    assert Columns[|Attributes|] == OverviewColumn;
    var overview := OverviewText(row[OverviewColumn]).value;
    assert Join(Tokens(row), ' ') + " " + overview == " " + overview;
  }

  /**
   * The tokens can be recovered from the soup: when there is at least one,
   * cutting off the final space and overview and splitting what is left on
   * single spaces gives back exactly the token list.
   */
  lemma SoupRoundTrip(row: Row)
    requires Soup(row).Success?
    requires HasColumns(row, Attributes) && |Tokens(row)| > 0
    ensures OverviewColumn in row && OverviewText(row[OverviewColumn]).Some?
    ensures var v := Soup(row).value;
      var overview := OverviewText(row[OverviewColumn]).value;
      Split(v[..|v| - |overview| - 1], ' ') == Tokens(row)
  {
    SoupLayout(row);
    TokensOfSpaceFree(row, Attributes);
    SplitJoin(Tokens(row), ' ');
  }

  /** Two rows that agree on the columns `cols` have the same first missing column among them. */
  lemma {:induction false} FirstMissingAgree(r1: Row, r2: Row, cols: seq<string>)
    requires forall i :: 0 <= i < |cols| ==> (cols[i] in r1 <==> cols[i] in r2)
    ensures FirstMissing(r1, cols) == FirstMissing(r2, cols)
    decreases |cols|
  {
    if |cols| > 0 && cols[0] in r1 {
      FirstMissingAgree(r1, r2, cols[1..]);
    }
  }

  /** Two rows that agree on the columns `cols` yield the same tokens from them. */
  lemma {:induction false} TokensOfAgree(r1: Row, r2: Row, cols: seq<string>)
    requires HasColumns(r1, cols) && HasColumns(r2, cols)
    requires forall i :: 0 <= i < |cols| ==> r1[cols[i]] == r2[cols[i]]
    ensures TokensOf(r1, cols) == TokensOf(r2, cols)
    decreases |cols|
  {
    if |cols| > 0 {
      TokensOfAgree(r1, r2, cols[..|cols| - 1]);
    }
  }

  /** Columns other than the six categorical ones and the overview never affect the soup. */
  lemma SoupReadsOnlyItsColumns(r1: Row, r2: Row)
    requires forall i :: 0 <= i < |Columns| ==> (Columns[i] in r1 <==> Columns[i] in r2)
    requires forall i :: 0 <= i < |Columns| && Columns[i] in r1 ==> r1[Columns[i]] == r2[Columns[i]]
    ensures Soup(r1) == Soup(r2)
  {
    FirstMissingAgree(r1, r2, Columns);
    CompleteColumns(r1);
    CompleteColumns(r2);
    assert Columns[|Attributes|] == OverviewColumn;
    if Complete(r1) {
      forall i | 0 <= i < |Attributes| ensures r1[Attributes[i]] == r2[Attributes[i]] {
        assert Columns[i] == Attributes[i];
      }
      TokensOfAgree(r1, r2, Attributes);
    }
  }
}

=== FILE: numerals.dfy ===
/**
 * Decimal text for integers: Python's `str(n)` / f-string formatting of an
 * `int`, and `int(s)` parsing a base-10 string.
 */
module Numerals {
  import opened Wrappers
  import opened Strings

  predicate IsDigit(c: char) {
    '0' <= c <= '9'
  }

  /** A non-empty run of ASCII decimal digits. */
  predicate IsDigitString(s: string) {
    |s| > 0 && forall i :: 0 <= i < |s| ==> IsDigit(s[i])
  }

  function DigitChar(d: nat): char
    requires d < 10
  {
    ('0' as int + d) as char
  }

  function DigitValue(c: char): nat
    requires IsDigit(c)
  {
    c as int - '0' as int
  }

  /** `str(n)` for `n >= 0`: most significant digit first, no leading zeros. */
  function NatToString(n: nat): (s: string)
    ensures IsDigitString(s)
    ensures |s| > 1 ==> s[0] != '0'
    decreases n
  {
    if n < 10 then [DigitChar(n)] else NatToString(n / 10) + [DigitChar(n % 10)]
  }

  /**
   * The digits `str(n)` writes: a minus sign before the digits of `|n|` when
   * `n` is negative. `str(n)` only writes them when `FitsDigitLimit(n)`.
   */
  function IntToString(n: int): (s: string)
  {
    if n < 0 then "-" + NatToString(-n) else NatToString(n)
  }

  /**
   * Python's default `sys.get_int_max_str_digits()`: base-10 `str(n)` and
   * `int(s)` raise `ValueError` for a number of more decimal digits than this,
   * the sign not counted and leading zeros of `s` counted.
   */
  const MaxStrDigits: nat := 4300

  /** `str(n)` does not raise: `|n|` has at most `MaxStrDigits` decimal digits. */
  predicate FitsDigitLimit(n: int) {
    |NatToString(if n < 0 then -n else n)| <= MaxStrDigits
  }

  function Pow10(k: nat): (r: nat)
    ensures r >= 1
  {
    if k == 0 then 1 else 10 * Pow10(k - 1)
  }

  /**
   * A non-negative number has at most `k` decimal digits exactly when it is
   * below `10^k`; so `FitsDigitLimit(n)` is `|n| < 10^4300`.
   */
  lemma {:induction false} DigitCountBound(n: nat, k: nat)
    requires k >= 1
    ensures |NatToString(n)| <= k <==> n < Pow10(k)
    decreases n
  {
    if n >= 10 {
      assert |NatToString(n)| == |NatToString(n / 10)| + 1;
      if k == 1 {
        assert |NatToString(n / 10)| >= 1;
      } else {
        DigitCountBound(n / 10, k - 1);
        assert n / 10 < Pow10(k - 1) <==> n < 10 * Pow10(k - 1);
      }
    } else if k > 1 {
      assert Pow10(k) == 10 * Pow10(k - 1);
    }
  }

  /** The number a run of decimal digits denotes. */
  function DigitsValue(s: string): nat
    requires forall i :: 0 <= i < |s| ==> IsDigit(s[i])
    decreases |s|
  {
    if |s| == 0 then 0 else DigitsValue(s[..|s| - 1]) * 10 + DigitValue(s[|s| - 1])
  }

  /**
   * The information separators U+001C to U+001F: whitespace to `str.isspace`,
   * but not skipped by `int()`.
   */
  predicate IsInfoSeparator(c: char) {
    '\U{001C}' <= c <= '\U{001F}'
  }

  /**
   * `int(s)` in base 10: surrounding whitespace is ignored, one optional sign,
   * then at least one and at most `MaxStrDigits` digits; anything else
   * raises, which is `None` here.
   * `int()` skips every `str.isspace` character except the information
   * separators; as those are neither digits nor signs, any of them anywhere
   * in `s` makes it raise.
   */
  function ParseInt(s: string): (r: Option<int>)
  {
    if exists i :: 0 <= i < |s| && IsInfoSeparator(s[i]) then None
    else ParseSigned(Strip(s))
  }

  /** `int()` of text already stripped: one optional sign, then the digits. */
  function ParseSigned(t: string): Option<int> {
    if |t| > 0 && t[0] == '-' then Negate(ParseDigits(t[1..]))
    else if |t| > 0 && t[0] == '+' then ParseDigits(t[1..])
    else ParseDigits(t)
  }

  /** The sign applied to a parsed magnitude; text that did not parse stays unparsed. */
  function Negate(r: Option<int>): Option<int> {
    if r.Some? then Some(-r.value) else None
  }

  /** The unsigned part of `int(s)`: one to `MaxStrDigits` digits and nothing else. */
  function ParseDigits(d: string): Option<int> {
    if IsDigitString(d) && |d| <= MaxStrDigits then Some(DigitsValue(d)) else None
  }

  lemma {:induction false} DigitsValueOfNatToString(n: nat)
    ensures DigitsValue(NatToString(n)) == n
    decreases n
  {
    if n >= 10 {
      var s := NatToString(n / 10);
      DigitsValueOfNatToString(n / 10);
      var t := s + [DigitChar(n % 10)];
      assert t[..|t| - 1] == s;
    }
  }

  /** The text of a number is not whitespace at either end and contains only a sign and digits. */
  lemma IntToStringChars(n: int)
    ensures var s := IntToString(n);
      && |s| > 0
      && (forall i :: 0 <= i < |s| ==> IsDigit(s[i]) || (i == 0 && s[i] == '-'))
      && !IsSpace(s[0]) && !IsSpace(s[|s| - 1])
  {
  }

  /**
   * Text with no whitespace at either end and no information separator is
   * read as it stands: an optional sign, then the digit run.
   */
  lemma ParseIntTrimmed(s: string)
    requires |s| > 0 && !IsSpace(s[0]) && !IsSpace(s[|s| - 1])
    requires forall i :: 0 <= i < |s| ==> !IsInfoSeparator(s[i])
    ensures ParseInt(s) == ParseSigned(s)
  {
    StripUntrimmed(s);
  }

  /**
   * A bare run of digits parses to the number it denotes as long as it has
   * at most `MaxStrDigits` digits, leading zeros included.
   */
  lemma ParseIntOfDigits(d: string)
    requires IsDigitString(d)
    ensures ParseInt(d) == if |d| <= MaxStrDigits then Some(DigitsValue(d)) else None
  {
    forall i | 0 <= i < |d| ensures !IsInfoSeparator(d[i]) {
      assert IsDigit(d[i]);
    }
    assert IsDigit(d[0]) && IsDigit(d[|d| - 1]);
    ParseIntTrimmed(d);
  }

  /**
   * `int(str(n)) == n` for every non-negative `n`, such as a user id, that
   * `str` can format; beyond the digit limit the text does not parse either.
   */
  lemma ParseIntOfNatToString(n: nat)
    ensures ParseInt(NatToString(n)) == if FitsDigitLimit(n) then Some(n) else None
  {
    ParseIntOfDigits(NatToString(n));
    DigitsValueOfNatToString(n);
  }

  /** A minus sign before a digit run negates what the run parses to. */
  lemma ParseSignedNegated(d: string)
    requires IsDigitString(d)
    ensures ParseSigned(['-'] + d) == if |d| <= MaxStrDigits then Some(-(DigitsValue(d) as int)) else None
  {
    var s := ['-'] + d;
    assert s[0] == '-' && s[1..] == d;
    if |d| <= MaxStrDigits {
      assert ParseDigits(d) == Some(DigitsValue(d));
    } else {
      assert ParseDigits(d) == None;
    }
  }

  /** `int("-" + d)` for a digit run `d`: the negated number, within the digit limit. */
  lemma ParseIntOfNegated(s: string, d: string)
    requires IsDigitString(d) && s == ['-'] + d
    ensures ParseInt(s) == if |d| <= MaxStrDigits then Some(-(DigitsValue(d) as int)) else None
  {
    forall i | 0 <= i < |s| ensures !IsInfoSeparator(s[i]) {
      if i > 0 { assert s[i] == d[i - 1] && IsDigit(d[i - 1]); }
    }
    assert s[|s| - 1] == d[|d| - 1] && IsDigit(d[|d| - 1]);
    ParseIntTrimmed(s);
    ParseSignedNegated(d);
  }

  /** `int(str(n)) == n` for a negative `n` that `str` can format. */
  lemma ParseIntOfNegativeToString(n: int)
    requires n < 0
    ensures ParseInt(IntToString(n)) == if FitsDigitLimit(n) then Some(n) else None
  {
    var m: nat := -n;
    var d := NatToString(m);
    NegativeToString(n);
    ParseIntOfNegated(IntToString(n), d);
    DigitsValueOfNatToString(m);
  }

  /** The text of a negative number is a minus sign before the digits of its magnitude. */
  lemma NegativeToString(n: int)
    requires n < 0
    ensures IntToString(n) == ['-'] + NatToString(-n)
  {
    assert "-" == ['-'];
  }

  /** `int(str(n)) == n` for every integer `n` that `str` can format. */
  lemma ParseIntOfIntToString(n: int)
    ensures ParseInt(IntToString(n)) == if FitsDigitLimit(n) then Some(n) else None
  {
    if n < 0 {
      ParseIntOfNegativeToString(n);
    } else {
      assert IntToString(n) == NatToString(n);
      ParseIntOfNatToString(n);
    }
  }

  /** A run of `k` zeros before the digit 5: `int()` counts the zeros towards the limit. */
  lemma ParseIntPaddedFive(k: nat)
    ensures ParseInt(seq(k, _ => '0') + "5") == if k < MaxStrDigits then Some(5) else None
  {
    var zeros := seq(k, _ => '0');
    var d := zeros + "5";
    assert IsDigitString(d) by {
      forall i | 0 <= i < |d| ensures IsDigit(d[i]) {
        if i < k { assert d[i] == zeros[i]; }
      }
    }
    assert d[..|d| - 1] == zeros && d[|d| - 1] == '5';
    DigitsValueOfZeros(k);
    assert DigitsValue(d) == DigitsValue(zeros) * 10 + DigitValue('5') == 5;
    ParseIntOfDigits(d);
  }

  lemma {:induction false} DigitsValueOfZeros(k: nat)
    ensures DigitsValue(seq(k, _ => '0')) == 0
  {
    if k > 0 {
      var zeros := seq(k, _ => '0');
      assert zeros[..k - 1] == seq(k - 1, _ => '0');
      DigitsValueOfZeros(k - 1);
    }
  }

  /** An information separator before the digits makes `int()` raise: `int("\x1c5")`. */
  lemma ParseIntRejectsInfoSeparator()
    ensures ParseInt("\U{001C}5") == None
  {
  }

  /** Stripping text that has no digit leaves text with no digit. */
  lemma StripKeepsNoDigit(s: string)
    requires forall i :: 0 <= i < |s| ==> !IsDigit(s[i])
    ensures var t := Strip(s); forall i :: 0 <= i < |t| ==> !IsDigit(t[i])
  {
    var t := Strip(s);
    StripFramed(s);
    var k := |s| - |TrimStart(s)|;
    forall i | 0 <= i < |t| ensures !IsDigit(t[i]) {
      assert t[i] == s[k + i];
    }
  }

  /** Neither a digit-free text nor its tail is a digit run. */
  lemma ParseDigitsNeedsDigit(t: string)
    requires forall i :: 0 <= i < |t| ==> !IsDigit(t[i])
    ensures ParseDigits(t) == None
    ensures |t| > 0 ==> ParseDigits(t[1..]) == None
  {
    if |t| > 1 {
      assert t[1..][0] == t[1];
    }
  }

  /** Text with no digit at all never parses as a number. */
  lemma ParseIntNeedsDigit(s: string)
    requires forall i :: 0 <= i < |s| ==> !IsDigit(s[i])
    ensures ParseInt(s) == None
  {
    if !exists i :: 0 <= i < |s| && IsInfoSeparator(s[i]) {
      StripKeepsNoDigit(s);
      ParseDigitsNeedsDigit(Strip(s));
    }
  }
}

=== FILE: splitting.dfy ===
/**
 * Python's `sep.join(parts)` and `s.split(sep)` with an explicit separator,
 * and the round trips between them.
 */
module Splitting {

  /** `sep.join(parts)` for a one-character separator. */
  function Join(parts: seq<string>, sep: char): (r: string)
    ensures |parts| == 0 ==> r == ""
    decreases |parts|
  {
    if |parts| == 0 then ""
    else if |parts| == 1 then parts[0]
    else parts[0] + [sep] + Join(parts[1..], sep)
  }

  /**
   * `s.split(sep)` for a one-character separator: the pieces between
   * consecutive separators, empty pieces included, so there is always one
   * more piece than there are separators.
   */
  function Split(s: string, sep: char): (parts: seq<string>)
    ensures |parts| >= 1
    ensures forall i :: 0 <= i < |parts| ==> sep !in parts[i]
    decreases |s|
  {
    if |s| == 0 then [""]
    else if s[0] == sep then [""] + Split(s[1..], sep)
    else
      var rest := Split(s[1..], sep);
      [[s[0]] + rest[0]] + rest[1..]
  }

  /** A string without the separator splits into itself alone. */
  lemma {:induction false} SplitWithoutSeparator(s: string, sep: char)
    requires sep !in s
    ensures Split(s, sep) == [s]
    decreases |s|
  {
    if |s| > 0 {
      assert sep !in s[1..];
      SplitWithoutSeparator(s[1..], sep);
      assert [s[0]] + s[1..] == s;
    }
  }

  /** A separator-free prefix glues onto the first piece of what follows it. */
  lemma {:induction false} SplitPrefix(p: string, t: string, sep: char)
    requires sep !in p
    ensures Split(p + t, sep) == [p + Split(t, sep)[0]] + Split(t, sep)[1..]
    decreases |p|
  {
    if |p| == 0 {
      assert p + t == t;
      assert p + Split(t, sep)[0] == Split(t, sep)[0];
      assert Split(t, sep) == [Split(t, sep)[0]] + Split(t, sep)[1..];
    } else {
      var s := p + t;
      assert s[0] == p[0];
      assert s[1..] == p[1..] + t;
      assert sep !in p[1..];
      SplitPrefix(p[1..], t, sep);
      assert [p[0]] + (p[1..] + Split(t, sep)[0]) == p + Split(t, sep)[0];
    }
  }

  /**
   * Splitting undoes joining: when there is at least one part and no part
   * contains the separator, `sep.join(parts).split(sep) == parts`.
   */
  lemma {:induction false} SplitJoin(parts: seq<string>, sep: char)
    requires |parts| > 0
    requires forall i :: 0 <= i < |parts| ==> sep !in parts[i]
    ensures Split(Join(parts, sep), sep) == parts
    decreases |parts|
  {
    if |parts| == 1 {
      SplitWithoutSeparator(parts[0], sep);
    } else {
      var rest := Join(parts[1..], sep);
      SplitJoin(parts[1..], sep);
      assert Join(parts, sep) == parts[0] + ([sep] + rest);
      SplitPrefix(parts[0], [sep] + rest, sep);
      assert ([sep] + rest)[1..] == rest;
      assert Split([sep] + rest, sep) == [""] + parts[1..];
      assert parts[0] + "" == parts[0];
      assert [parts[0]] + parts[1..] == parts;
    }
  }

  /** Joining undoes splitting: `sep.join(s.split(sep)) == s` for every `s`. */
  lemma {:induction false} JoinSplit(s: string, sep: char)
    ensures Join(Split(s, sep), sep) == s
    decreases |s|
  {
    if |s| > 0 {
      var rest := Split(s[1..], sep);
      JoinSplit(s[1..], sep);
      if s[0] == sep {
        assert ([""] + rest)[1..] == rest;
        assert [s[0]] + s[1..] == s;
      } else {
        var parts := [[s[0]] + rest[0]] + rest[1..];
        assert parts[1..] == rest[1..];
        if |rest| == 1 {
          assert [s[0]] + s[1..] == s;
        } else {
          assert Join(rest, sep) == rest[0] + [sep] + Join(rest[1..], sep);
          assert Join(parts, sep) == [s[0]] + rest[0] + [sep] + Join(rest[1..], sep);
          assert [s[0]] + s[1..] == s;
        }
      }
    }
  }

  /**
   * `s.split(sep)` for a non-empty separator string: scanning left to right,
   * each leftmost occurrence of `sep` ends one piece and is skipped whole.
   */
  function SplitOn(s: string, sep: string): (parts: seq<string>)
    requires |sep| > 0
    ensures |parts| >= 1
    decreases |s|
  {
    if |s| < |sep| then [s]
    else if s[..|sep|] == sep then [""] + SplitOn(s[|sep|..], sep)
    else
      var rest := SplitOn(s[1..], sep);
      [[s[0]] + rest[0]] + rest[1..]
  }

  /**
   * The one-character `Split` is `SplitOn` with a one-character separator;
   * it is kept apart because its recursion is the simpler one to reason about.
   */
  lemma {:induction false} SplitIsSplitOn(s: string, sep: char)
    ensures Split(s, sep) == SplitOn(s, [sep])
    decreases |s|
  {
    if |s| > 0 {
      SplitIsSplitOn(s[1..], sep);
      assert s[..1] == [s[0]];
    }
  }

  /** `s.split(sep)[-1]`: the text after the last separator found. */
  function LastSegment(s: string, sep: string): string
    requires |sep| > 0
  {
    var parts := SplitOn(s, sep);
    parts[|parts| - 1]
  }

  /** No proper prefix of `sep` is also a suffix of it, so occurrences of `sep` cannot overlap. */
  predicate Borderless(sep: string) {
    forall j :: 0 < j < |sep| ==> sep[..j] != sep[|sep| - j..]
  }

  /** A string without the first character of `sep` is one piece. */
  lemma {:induction false} SplitOnWithoutHead(s: string, sep: string)
    requires |sep| > 0 && sep[0] !in s
    ensures SplitOn(s, sep) == [s]
    decreases |s|
  {
    if |s| >= |sep| {
      assert s[..|sep|][0] == s[0];
      assert sep[0] !in s[1..];
      SplitOnWithoutHead(s[1..], sep);
      assert [s[0]] + s[1..] == s;
    }
  }

  /** Where `sep` does not start the text, the first character joins the first piece. */
  lemma SplitOnStep(s: string, sep: string)
    requires |sep| > 0 && |s| > 0
    requires |s| < |sep| || s[..|sep|] != sep
    ensures var parts := SplitOn(s, sep);
      var rest := SplitOn(s[1..], sep);
      |parts| == |rest| && parts[|parts| - 1] == (if |rest| == 1 then [s[0]] + rest[0] else rest[|rest| - 1])
  {
    var rest := SplitOn(s[1..], sep);
    if |s| < |sep| {
      SplitOnShort(s, sep);
      SplitOnShort(s[1..], sep);
    } else {
      var parts := [[s[0]] + rest[0]] + rest[1..];
      assert SplitOn(s, sep) == parts;
      assert |parts| == |rest|;
      if |rest| > 1 {
        assert parts[|parts| - 1] == rest[1..][|rest| - 2];
      }
    }
  }

  /** Text shorter than the separator is one piece. */
  lemma SplitOnShort(s: string, sep: string)
    requires |sep| > 0 && |s| < |sep|
    ensures SplitOn(s, sep) == [s]
  {
  }

  /**
   * A borderless separator cannot start inside a shorter non-empty prefix and
   * run on into a copy of itself.
   */
  lemma BorderBlocksMatch(p: string, sep: string, t: string)
    requires 0 < |p| < |sep| && Borderless(sep)
    ensures (p + sep + t)[..|sep|] != sep
  {
    var s := p + sep + t;
    var j := |sep| - |p|;
    assert s[|p|..|sep|] == sep[..j];
    assert s[..|sep|][|p|..] == s[|p|..|sep|];
    assert sep[|sep| - j..] != sep[..j];
  }

  /**
   * Whatever comes before an occurrence of a borderless separator, the pieces
   * after that occurrence are the pieces of the text after it: in particular
   * the last piece of `p + sep + t` is the last piece of `t`.
   */
  lemma {:induction false} LastSegmentAfter(p: string, sep: string, t: string)
    requires |sep| > 0 && Borderless(sep)
    ensures var parts := SplitOn(p + sep + t, sep);
      |parts| >= 2 && parts[|parts| - 1] == LastSegment(t, sep)
    decreases |p|
  {
    var s := p + sep + t;
    if |p| == 0 {
      assert s == sep + t;
      assert s[..|sep|] == sep;
      assert s[|sep|..] == t;
    } else if |p| >= |sep| && s[..|sep|] == sep {
      assert p[..|sep|] == sep;
      assert s[|sep|..] == p[|sep|..] + sep + t;
      LastSegmentAfter(p[|sep|..], sep, t);
    } else {
      if |p| < |sep| {
        BorderBlocksMatch(p, sep, t);
      }
      assert s[1..] == p[1..] + sep + t;
      LastSegmentAfter(p[1..], sep, t);
      SplitOnStep(s, sep);
    }
  }
}

=== FILE: strings.dfy ===
/**
 * Character-level string operations of Python's `str` used by the core:
 * `lower()`, `replace(from, to)` for one-character arguments, `strip()` and
 * the substring test `sub in s`.
 */
module Strings {

  /** An ASCII upper-case letter, the only characters `LowerChar` changes. */
  predicate IsAsciiUpper(c: char) {
    'A' <= c <= 'Z'
  }

  /** ASCII lower-casing of one character. */
  function LowerChar(c: char): char {
    if IsAsciiUpper(c) then (c as int + 32) as char else c
  }

  /** `s.lower()`, restricted to ASCII letters. */
  function Lower(s: string): (r: string)
    ensures |r| == |s|
    ensures forall i :: 0 <= i < |s| ==> r[i] == LowerChar(s[i])
    ensures forall i :: 0 <= i < |r| ==> !IsAsciiUpper(r[i])
    decreases |s|
  {
    if |s| == 0 then "" else [LowerChar(s[0])] + Lower(s[1..])
  }

  /** Lower-casing neither creates nor removes a space. */
  lemma LowerCharKeepsSpace(c: char)
    ensures LowerChar(c) == ' ' <==> c == ' '
  {
  }

  /** `s.replace(from, to)` for a one-character `from` and `to`. */
  function ReplaceChar(s: string, from: char, to: char): (r: string)
    ensures |r| == |s|
    ensures forall i :: 0 <= i < |s| ==> r[i] == (if s[i] == from then to else s[i])
    decreases |s|
  {
    if |s| == 0 then ""
    else [if s[0] == from then to else s[0]] + ReplaceChar(s[1..], from, to)
  }

  /** `s.replace(c, "")`: every occurrence of `c` deleted, the rest kept in order. */
  function RemoveChar(s: string, c: char): (r: string)
    ensures c !in r
    ensures |r| <= |s|
    decreases |s|
  {
    if |s| == 0 then ""
    else (if s[0] == c then "" else [s[0]]) + RemoveChar(s[1..], c)
  }

  /** Deleting a character commutes with concatenation. */
  lemma {:induction false} RemoveCharAppend(a: string, b: string, c: char)
    ensures RemoveChar(a + b, c) == RemoveChar(a, c) + RemoveChar(b, c)
    decreases |a|
  {
    if |a| > 0 {
      assert (a + b)[0] == a[0];
      assert (a + b)[1..] == a[1..] + b;
      RemoveCharAppend(a[1..], b, c);
    } else {
      assert a + b == b;
    }
  }

  /** A string without `c` is left unchanged by deleting `c`. */
  lemma {:induction false} RemoveCharAbsent(s: string, c: char)
    requires c !in s
    ensures RemoveChar(s, c) == s
    decreases |s|
  {
    if |s| > 0 {
      assert c !in s[1..];
      RemoveCharAbsent(s[1..], c);
      assert [s[0]] + s[1..] == s;
    }
  }

  /**
   * Python's `str.isspace` for one character: the characters `strip()`
   * removes. `int()` ignores the same characters around a number, except the
   * four information separators U+001C to U+001F.
   */
  predicate IsSpace(c: char) {
    || c == ' ' || c == '\t' || c == '\n' || c == '\r'
    || c == '\U{000B}' || c == '\U{000C}'
    || ('\U{001C}' <= c <= '\U{001F}')
    || c == '\U{0085}' || c == '\U{00A0}' || c == '\U{1680}'
    || ('\U{2000}' <= c <= '\U{200A}')
    || c == '\U{2028}' || c == '\U{2029}' || c == '\U{202F}' || c == '\U{205F}' || c == '\U{3000}'
  }

  /** `s.lstrip()`; TrimStartSpec says what it returns. */
  function TrimStart(s: string): string
    decreases |s|
  {
    if |s| > 0 && IsSpace(s[0]) then TrimStart(s[1..]) else s
  }

  /** `s.lstrip()` is the longest suffix of `s` that does not start with whitespace. */
  lemma {:induction false} TrimStartSpec(s: string)
    ensures var r := TrimStart(s);
      && |r| <= |s| && r == s[|s| - |r|..]
      && (forall i :: 0 <= i < |s| - |r| ==> IsSpace(s[i]))
      && (|r| > 0 ==> !IsSpace(r[0]))
    decreases |s|
  {
    if |s| > 0 && IsSpace(s[0]) {
      TrimStartSpec(s[1..]);
      var r := TrimStart(s);
      forall i | 0 < i < |s| - |r| ensures IsSpace(s[i]) {
        assert s[i] == s[1..][i - 1];
      }
      assert s[1..][|s| - 1 - |r|..] == s[|s| - |r|..];
    }
  }

  /** `s.rstrip()`; TrimEndSpec says what it returns. */
  function TrimEnd(s: string): string
    decreases |s|
  {
    if |s| > 0 && IsSpace(s[|s| - 1]) then TrimEnd(s[..|s| - 1]) else s
  }

  /** `s.rstrip()` is the longest prefix of `s` that does not end with whitespace. */
  lemma {:induction false} TrimEndSpec(s: string)
    ensures var r := TrimEnd(s);
      && |r| <= |s| && r == s[..|r|]
      && (forall i :: |r| <= i < |s| ==> IsSpace(s[i]))
      && (|r| > 0 ==> !IsSpace(r[|r| - 1]))
    decreases |s|
  {
    if |s| > 0 && IsSpace(s[|s| - 1]) {
      var u := s[..|s| - 1];
      TrimEndSpec(u);
      var r := TrimEnd(s);
      forall i | |r| <= i < |s| - 1 ensures IsSpace(s[i]) {
        assert s[i] == u[i];
      }
      assert u[..|r|] == s[..|r|];
    }
  }

  /** `s.strip()`. */
  function Strip(s: string): (r: string)
  {
    TrimEnd(TrimStart(s))
  }

  /** `r` is the slice of `s` starting at `i` and everything around it in `s` is whitespace. */
  predicate FramedBySpace(s: string, r: string, i: int) {
    && 0 <= i <= |s| - |r|
    && r == s[i..i + |r|]
    && (forall k :: 0 <= k < i ==> IsSpace(s[k]))
    && (forall k :: i + |r| <= k < |s| ==> IsSpace(s[k]))
  }

  /**
   * Cutting whitespace off the front of `s` and then off the back of what is
   * left frames the final slice by whitespace in `s`.
   */
  lemma FramedByTwoCuts(s: string, t: string, r: string)
    requires |t| <= |s| && t == s[|s| - |t|..]
    requires forall k :: 0 <= k < |s| - |t| ==> IsSpace(s[k])
    requires |r| <= |t| && r == t[..|r|]
    requires forall k :: |r| <= k < |t| ==> IsSpace(t[k])
    ensures FramedBySpace(s, r, |s| - |t|)
  {
    var i := |s| - |t|;
    assert r == s[i..i + |r|];
    forall k | i + |r| <= k < |s|
      ensures IsSpace(s[k])
    {
      assert s[k] == t[k - i];
    }
  }

  /** `strip()` returns the slice of `s` between its leading and its trailing whitespace. */
  lemma StripFramed(s: string)
    ensures FramedBySpace(s, Strip(s), |s| - |TrimStart(s)|)
  {
    TrimStartSpec(s);
    TrimEndSpec(TrimStart(s));
    FramedByTwoCuts(s, TrimStart(s), TrimEnd(TrimStart(s)));
  }

  /** The result of `strip()` neither starts nor ends with whitespace. */
  lemma StripEnds(s: string)
    ensures var r := Strip(s);
      |r| > 0 ==> !IsSpace(r[0]) && !IsSpace(r[|r| - 1])
  {
    var t := TrimStart(s);
    var r := TrimEnd(t);
    TrimStartSpec(s);
    TrimEndSpec(t);
    if |r| > 0 {
      assert r[0] == t[0];
    }
  }

  /**
   * What `strip()` promises: the result is the slice of `s` left once the
   * whitespace at both ends is cut away, it neither starts nor ends with
   * whitespace, and it is empty exactly when `s` is all whitespace.
   */
  lemma StripSpec(s: string)
    ensures var r := Strip(s);
      && (exists i :: FramedBySpace(s, r, i))
      && (|r| > 0 ==> !IsSpace(r[0]) && !IsSpace(r[|r| - 1]))
      && (|r| == 0 <==> forall k :: 0 <= k < |s| ==> IsSpace(s[k]))
  {
    var r := Strip(s);
    var i := |s| - |TrimStart(s)|;
    TrimStartSpec(s);
    StripFramed(s);
    StripEnds(s);
    if |r| > 0 {
      assert !IsSpace(s[i]);
    }
  }

  /** A string that neither starts nor ends with whitespace is its own `strip()`. */
  lemma StripUntrimmed(s: string)
    requires |s| > 0 ==> !IsSpace(s[0]) && !IsSpace(s[|s| - 1])
    ensures Strip(s) == s
  {
  }

  /** `sub in s` for strings: `sub` occurs somewhere in `s` as a contiguous slice. */
  predicate Contains(s: string, sub: string)
    decreases |s|
  {
    |sub| <= |s| && (s[..|sub|] == sub || Contains(s[1..], sub))
  }

  /** `sub` occurs in `s` starting at position `i`. */
  predicate OccursAt(s: string, sub: string, i: int) {
    0 <= i <= |s| - |sub| && s[i..i + |sub|] == sub
  }

  /** The recursive substring test agrees with "there is a position where `sub` starts". */
  lemma {:induction false} ContainsAt(s: string, sub: string)
    ensures Contains(s, sub) <==> exists i :: OccursAt(s, sub, i)
    decreases |s|
  {
    if |sub| <= |s| {
      if s[..|sub|] == sub {
        assert OccursAt(s, sub, 0);
      } else {
        ContainsAt(s[1..], sub);
        if Contains(s[1..], sub) {
          var j :| OccursAt(s[1..], sub, j);
          assert s[1..][j..j + |sub|] == s[j + 1..j + 1 + |sub|];
          assert OccursAt(s, sub, j + 1);
        }
        if exists i :: OccursAt(s, sub, i) {
          var i :| OccursAt(s, sub, i);
          assert i != 0;
          assert s[1..][i - 1..i - 1 + |sub|] == s[i..i + |sub|];
          assert OccursAt(s[1..], sub, i - 1);
        }
      }
    } else {
      forall i | OccursAt(s, sub, i) ensures false {
      }
    }
  }

  /** `sub` occurs in anything built around it. */
  lemma ContainsInfix(a: string, sub: string, b: string)
    ensures Contains(a + sub + b, sub)
  {
    var s := a + sub + b;
    assert s[|a|..|a| + |sub|] == sub;
    assert OccursAt(s, sub, |a|);
    ContainsAt(s, sub);
  }

  /** A string missing the first character of `sub` cannot contain `sub`. */
  lemma NotContainsWithoutHead(s: string, sub: string)
    requires |sub| > 0 && sub[0] !in s
    ensures !Contains(s, sub)
  {
    ContainsAt(s, sub);
    forall i | 0 <= i <= |s| - |sub| ensures !OccursAt(s, sub, i) {
      assert s[i..i + |sub|][0] == s[i];
    }
  }
}

=== FILE: user_selector.dfy ===
/**
 * The user selector of the front end, lifted out of its UI code: the id to
 * name map and the option labels built from the user list, the id given to a
 * new user, the id read back from a selected label, and the check on a new
 * user's name.
 */
module UserSelector {
  import opened Wrappers
  import opened Strings
  import opened Splitting
  import opened Numerals

  /** A registered user: `{"usuario_id": id, "nome": name}`. */
  datatype User = User(id: int, name: string)

  /** One entry of the user list as received; `None` is a key the entry lacks. */
  datatype UserRecord = UserRecord(id: Option<int>, name: Option<string>)

  /**
   * The answer to the user-list request: the request or its decoding failed,
   * or a body whose `usuarios` key may be absent.
   */
  datatype UsersResponse = RequestFailed | Body(usuarios: Option<seq<UserRecord>>)

  /** What the selector shows: the id to name map and the option labels. */
  datatype Selector = Selector(userMap: map<int, string>, options: seq<string>)

  /** Ways reading the active user from a selected option raises. */
  datatype SelectError =
    | InvalidId          // `int(...)` raises `ValueError`
    | UnknownUser(id: int) // `user_map[id]` raises `KeyError`

  /** The name of a new user is blank. */
  datatype NewUserError = EmptyName

  /** The first option, shown before any user is chosen: the message framed by `---`. */
  const SelectPrompt: string := "--- " + "Selecione ou Crie um Usuário" + " ---"

  /** The only option when the user list could not be loaded, framed the same way. */
  const LoadErrorPrompt: string := "--- " + "Erro ao carregar usuários" + " ---"

  /** The text whose presence marks an option as naming a user. */
  const IdMarker: string := "ID:"

  /** The text the id is read after. */
  const IdSeparator: string := "ID: "

  /** The label of a user in the selector: `f"{nome} (ID: {usuario_id})"`. */
  function Label(u: User): string {
    u.name + " (ID: " + IntToString(u.id) + ")"
  }

  /** `{user['usuario_id']: user['nome'] for user in users}`: a later entry overwrites an earlier one with the same id. */
  function UserMap(users: seq<User>): (m: map<int, string>)
    ensures forall i :: 0 <= i < |users| ==> users[i].id in m
    ensures forall id :: id in m ==> exists i :: 0 <= i < |users| && users[i].id == id
    decreases |users|
  {
    if |users| == 0 then map[]
    else
      var last := users[|users| - 1];
      UserMap(users[..|users| - 1])[last.id := last.name]
  }

  /** The users of a list in which every entry has both keys; `None` when one lacks a key. */
  function ToUsers(records: seq<UserRecord>): Option<seq<User>> {
    if forall i :: 0 <= i < |records| ==> records[i].id.Some? && records[i].name.Some? then
      Some(seq(|records|, i requires 0 <= i < |records| => User(records[i].id.value, records[i].name.value)))
    else None
  }

  /** Every id of the list can be written by `str`. */
  predicate IdsFit(users: seq<User>) {
    forall i :: 0 <= i < |users| ==> FitsDigitLimit(users[i].id)
  }

  /**
   * The selector for a list of users: the prompt, then one label per user in
   * list order. `None` when some id is too long for `str`: formatting its
   * label raises `ValueError`.
   */
  function BuildSelector(users: seq<User>): Option<Selector> {
    if IdsFit(users) then
      Some(Selector(UserMap(users), [SelectPrompt] + seq(|users|, i requires 0 <= i < |users| => Label(users[i]))))
    else None
  }

  /**
   * `get_usuarios_validos()`: the selector for the received users, or an
   * empty map and the error option when the request fails, an entry lacks
   * a key or an id is too long to format (the comprehensions raise and the
   * handler takes over). A body without `usuarios` counts as an empty list.
   */
  function LoadUsers(response: UsersResponse): Selector {
    match response
    case RequestFailed => Selector(map[], [LoadErrorPrompt])
    case Body(usuarios) =>
      var records := if usuarios.Some? then usuarios.value else [];
      match ToUsers(records)
      case None => Selector(map[], [LoadErrorPrompt])
      case Some(users) =>
        match BuildSelector(users)
        case None => Selector(map[], [LoadErrorPrompt])
        case Some(s) => s
  }

  /** `int(option.split("ID: ")[-1].replace(")", ""))`. */
  function DecodeId(option: string): Option<int> {
    ParseInt(RemoveChar(LastSegment(option, IdSeparator), ')'))
  }

  /**
   * The active user for a selected option: nobody when the option has no
   * `ID:`, otherwise the decoded id, which must parse and name a known user.
   */
  function SelectUser(option: string, userMap: map<int, string>): (r: Result<Option<int>, SelectError>)
    ensures r == Success(None) <==> !Contains(option, IdMarker)
    ensures r.Success? && r.value.Some? ==> r.value.value in userMap && DecodeId(option) == r.value
    ensures Contains(option, IdMarker) ==>
      (r.Failure? <==> DecodeId(option).None? || DecodeId(option).value !in userMap)
    ensures r.Failure? ==>
      r.error == (if DecodeId(option).None? then InvalidId else UnknownUser(DecodeId(option).value))
  {
    if !Contains(option, IdMarker) then Success(None)
    else match DecodeId(option)
      case None => Failure(InvalidId)
      case Some(id) => if id in userMap then Success(Some(id)) else Failure(UnknownUser(id))
  }

  /**
   * `get_next_user_id(user_map)`: 1 for an empty map, otherwise one more
   * than the largest id, so never an id already in use.
   */
  method NextUserId(userMap: map<int, string>) returns (next: int)
    ensures |userMap| == 0 ==> next == 1
    ensures |userMap| > 0 ==> next - 1 in userMap
    ensures forall id :: id in userMap ==> id < next
    ensures next !in userMap
  {
    if |userMap| == 0 {
      return 1;
    }
    var remaining := userMap.Keys;
    EmptyWithoutMembers(remaining);
    var best: int :| best in remaining;
    remaining := remaining - {best};
    while remaining != {}
      invariant remaining <= userMap.Keys
      invariant best in userMap
      invariant forall id :: id in userMap && id !in remaining ==> id <= best
      decreases remaining
    {
      EmptyWithoutMembers(remaining);
      var id: int :| id in remaining;
      if id > best {
        best := id;
      }
      remaining := remaining - {id};
    }
    next := best + 1;
  }

  /** A set of ids with no member is the empty set. */
  lemma EmptyWithoutMembers(s: set<int>)
    ensures (forall k :: k !in s) ==> s == {}
  {
    if forall k :: k !in s {
      var none: set<int> := {};
      assert forall k :: k in s <==> k in none;
      assert s == none;
    }
  }

  /**
   * The request the new-user form sends: a blank name (empty after
   * `strip()`) is refused, otherwise the stripped name with the new id.
   */
  function NewUserRequest(name: string, nextId: int): (r: Result<User, NewUserError>)
    ensures r.Success? ==> r.value == User(nextId, Strip(name))
    ensures r.Failure? <==> forall k :: 0 <= k < |name| ==> IsSpace(name[k])
  {
    StripSpec(name);
    var trimmed := Strip(name);
    if |trimmed| == 0 then Failure(EmptyName) else Success(User(nextId, trimmed))
  }

  /** No occurrence of `ID: ` overlaps another. */
  lemma IdSeparatorBorderless()
    ensures Borderless(IdSeparator)
  {
    var sep := IdSeparator;
    forall j | 0 < j < |sep| ensures sep[..j] != sep[|sep| - j..] {
      assert sep[..j][0] == 'I';
      assert sep[|sep| - j..][0] == sep[|sep| - j];
    }
  }

  /** The last `ID: ` piece of a label is the id's digits and the closing parenthesis. */
  lemma LabelLastSegment(u: User)
    ensures LastSegment(Label(u), IdSeparator) == IntToString(u.id) + ")"
  {
    var t := IntToString(u.id) + ")";
    assert Label(u) == (u.name + " (") + IdSeparator + t;
    IdSeparatorBorderless();
    LastSegmentAfter(u.name + " (", IdSeparator, t);
    IntToStringChars(u.id);
    assert 'I' !in t;
    SplitOnWithoutHead(t, IdSeparator);
  }

  /** Deleting `)` from the id's digits and the closing parenthesis leaves the digits. */
  lemma DropParenthesis(digits: string)
    requires ')' !in digits
    ensures RemoveChar(digits + ")", ')') == digits
  {
    RemoveCharAppend(digits, ")", ')');
    RemoveCharAbsent(digits, ')');
    assert RemoveChar(")", ')') == "";
    assert digits + "" == digits;
  }

  /**
   * Decoding a label gives back its user's id, whatever the name, even one
   * that itself contains `ID: ` or `)`: the id is read after the last `ID: `.
   * A label whose id is too long for `str` does not parse back.
   */
  lemma DecodeLabel(u: User)
    ensures Contains(Label(u), IdMarker)
    ensures DecodeId(Label(u)) == if FitsDigitLimit(u.id) then Some(u.id) else None
  {
    var digits := IntToString(u.id);
    assert Label(u) == (u.name + " (") + IdMarker + (" " + digits + ")");
    ContainsInfix(u.name + " (", IdMarker, " " + digits + ")");
    LabelLastSegment(u);
    IntToStringChars(u.id);
    assert ')' !in digits;
    DropParenthesis(digits);
    ParseIntOfIntToString(u.id);
  }

  /** The example in the source: `"Nome (ID: 10)"` decodes to 10. */
  lemma DecodeExample()
    ensures DecodeId("Nome (ID: 10)") == Some(10)
  {
    var u := User(10, "Nome");
    assert NatToString(10) == "10";
    assert Label(u) == "Nome (ID: 10)";
    DecodeLabel(u);
  }

  /** The selection prompt does not contain `ID:`. */
  lemma SelectPromptLacksMarker()
    ensures !Contains(SelectPrompt, IdMarker)
  {
    assert 'I' !in SelectPrompt;
    NotContainsWithoutHead(SelectPrompt, IdMarker);
  }

  /** The load-error prompt does not contain `ID:`. */
  lemma LoadErrorPromptLacksMarker()
    ensures !Contains(LoadErrorPrompt, IdMarker)
  {
    assert 'I' !in LoadErrorPrompt;
    NotContainsWithoutHead(LoadErrorPrompt, IdMarker);
  }

  /** Choosing either prompt option selects nobody. */
  lemma PromptsSelectNobody(userMap: map<int, string>)
    ensures SelectUser(SelectPrompt, userMap) == Success(None)
    ensures SelectUser(LoadErrorPrompt, userMap) == Success(None)
  {
    SelectPromptLacksMarker();
    LoadErrorPromptLacksMarker();
  }

  /**
   * For a list whose ids are distinct, the map takes each id to its user's
   * name; with repeated ids, the last entry for an id wins.
   */
  lemma {:induction false} UserMapLastWins(users: seq<User>, i: int)
    requires 0 <= i < |users|
    requires forall j :: i < j < |users| ==> users[j].id != users[i].id
    ensures UserMap(users)[users[i].id] == users[i].name
    decreases |users|
  {
    if i < |users| - 1 {
      UserMapLastWins(users[..|users| - 1], i);
    }
  }

  /** Choosing the label of a known user selects that user, if its id can be written at all. */
  lemma SelectLabel(u: User, userMap: map<int, string>)
    requires u.id in userMap
    ensures SelectUser(Label(u), userMap) == if FitsDigitLimit(u.id) then Success(Some(u.id)) else Failure(InvalidId)
  {
    DecodeLabel(u);
  }

  /** The option after the prompt at position `i + 1` selects the i-th user. */
  lemma SelectUserOption(users: seq<User>, i: int)
    requires 0 <= i < |users| && BuildSelector(users).Some?
    ensures var s := BuildSelector(users).value;
      SelectUser(s.options[i + 1], s.userMap) == Success(Some(users[i].id))
  {
    assert IdsFit(users);
    var labels := seq(|users|, j requires 0 <= j < |users| => Label(users[j]));
    var s := Selector(UserMap(users), [SelectPrompt] + labels);
    assert BuildSelector(users).value == s;
    assert s.options[i + 1] == labels[i] == Label(users[i]);
    assert FitsDigitLimit(users[i].id);
    SelectLabel(users[i], s.userMap);
  }

  /**
   * A selector can be built from a user list exactly when every id can be
   * written. It has the prompt followed by one option per user, in list
   * order; the prompt lacks `ID:`, so it selects nobody, and the option of
   * the i-th user selects that user's id.
   */
  lemma SelectorRoundTrip(users: seq<User>)
    ensures BuildSelector(users).Some? <==> forall i :: 0 <= i < |users| ==> FitsDigitLimit(users[i].id)
    ensures BuildSelector(users).Some? ==>
      var s := BuildSelector(users).value;
      && |s.options| == |users| + 1
      && s.options[0] == SelectPrompt
      && !Contains(s.options[0], IdMarker)
      && forall i :: 0 <= i < |users| ==> SelectUser(s.options[i + 1], s.userMap) == Success(Some(users[i].id))
  {
    SelectPromptLacksMarker();
    if BuildSelector(users).Some? {
      var s := BuildSelector(users).value;
      forall i | 0 <= i < |users|
        ensures SelectUser(s.options[i + 1], s.userMap) == Success(Some(users[i].id))
      {
        SelectUserOption(users, i);
      }
    }
  }

  /** The user list could not be used: no users, and the error option is the only option. */
  predicate IsFallback(s: Selector) {
    s.userMap == map[] && s.options == [LoadErrorPrompt]
  }

  /** Choosing option `i` of a selector built from a user list does not raise. */
  lemma BuiltOptionSelects(users: seq<User>, i: int)
    requires 0 <= i <= |users| && BuildSelector(users).Some?
    ensures SelectUser(BuildSelector(users).value.options[i], BuildSelector(users).value.userMap).Success?
  {
    if i == 0 {
      SelectPromptLacksMarker();
    } else {
      SelectUserOption(users, i - 1);
    }
  }

  /** No option of a selector built from a user list raises when chosen. */
  lemma BuiltSelectorNeverRaises(users: seq<User>)
    requires BuildSelector(users).Some?
    ensures var s := BuildSelector(users).value;
      forall i :: 0 <= i < |s.options| ==> SelectUser(s.options[i], s.userMap).Success?
  {
    var s := BuildSelector(users).value;
    forall i | 0 <= i < |s.options|
      ensures SelectUser(s.options[i], s.userMap).Success?
    {
      BuiltOptionSelects(users, i);
    }
  }

  /** The fallback selector's only option lacks `ID:`, so it selects nobody. */
  lemma FallbackSelectsNobody(s: Selector)
    requires IsFallback(s)
    ensures forall i :: 0 <= i < |s.options| ==> !Contains(s.options[i], IdMarker)
  {
    LoadErrorPromptLacksMarker();
  }

  /**
   * For every `UsersResponse` (integer ids and string names), choosing any option of the loaded selector
   * never raises, and the first option lacks `ID:`, so it selects nobody;
   * when the answer cannot be used the selector is the fallback.
   */
  lemma LoadUsersNeverRaises(response: UsersResponse)
    ensures |LoadUsers(response).options| >= 1
    ensures !Contains(LoadUsers(response).options[0], IdMarker)
    ensures forall i :: 0 <= i < |LoadUsers(response).options| ==>
      SelectUser(LoadUsers(response).options[i], LoadUsers(response).userMap).Success?
    ensures response.RequestFailed? ==> IsFallback(LoadUsers(response))
  {
    var s := LoadUsers(response);
    if response.Body? {
      var records := if response.usuarios.Some? then response.usuarios.value else [];
      if ToUsers(records).Some? && BuildSelector(ToUsers(records).value).Some? {
        var users := ToUsers(records).value;
        assert s == BuildSelector(users).value;
        SelectorRoundTrip(users);
        BuiltSelectorNeverRaises(users);
        return;
      }
    }
    assert IsFallback(s);
    FallbackSelectsNobody(s);
  }

  /**
   * A body whose entries all have both keys but one of whose ids is too long
   * for `str` gives the fallback selector: its label cannot be formatted.
   */
  lemma OversizedIdFallback(records: seq<UserRecord>, k: int)
    requires forall i :: 0 <= i < |records| ==> records[i].id.Some? && records[i].name.Some?
    requires 0 <= k < |records| && !FitsDigitLimit(records[k].id.value)
    ensures IsFallback(LoadUsers(Body(Some(records))))
  {
    var users := ToUsers(records).value;
    assert users[k].id == records[k].id.value;
  }

  /** A body in which some entry lacks a key gives the fallback selector. */
  lemma IncompleteRecordFallback(records: seq<UserRecord>, k: int)
    requires 0 <= k < |records| && (records[k].id.None? || records[k].name.None?)
    ensures IsFallback(LoadUsers(Body(Some(records))))
  {
  }
}

=== FILE: wrappers.dfy ===
/** Failure-carrying result types shared by the other modules. */
module Wrappers {

  /** A value that may be absent: Python's `None` on one side, a value on the other. */
  datatype Option<+T> = None | Some(value: T)

  /** The outcome of an operation that can raise: `Failure` stands for the exception. */
  datatype Result<+R, +E> = Success(value: R) | Failure(error: E)
}
